=== FILE: README.md ===
# Mock analytics engine of edge-insights, in Dafny

This project models the data side of the edge-insights web-performance
dashboard. It covers three parts:

- the mock analytics engine in `services/mockDataService.ts`;
- the shared types in `types.ts`;
- the parameter checks of the `GET /api/metrics` handler in
  `functions/api/metrics.ts`.

The engine synthesises a time series for one metric (LCP, FID or CLS) over a
timeframe (`24h`, `7d`, `30d`). It picks the 75th-percentile sample (p75) and
draws a synthetic period-over-period change with a direction. The handler
rejects unknown metrics and timeframes with a 400 and a fixed message. For a
valid request it returns the engine's result with a cache directive.

Modelling choices:

- `Math.random` becomes a stream `draws: seq<real>` of values in `[0, 1)`
  (`Types.ValidDraws`). The series uses draws `0 .. n-1`, one per point in
  loop order. The change uses draw `n`.
- "Now" is an epoch-millisecond `int`. An hour step is 3 600 000 ms and a day
  step 86 400 000 ms. Both steps go through `setUTCHours` / `setUTCDate`, and
  in UTC these are fixed lengths.
- Numbers are exact reals. `parseFloat(x.toFixed(d))` is `Rounding.ToFixed`.
  It gives the nearest multiple of 10^-d, with halves rounded away from zero.
  That is what `toFixed` does: it renders a negative number as "-" and its
  magnitude, and breaks ties toward the larger integer.
- The generator takes the timeframe as a string, so its `default:` branch
  stays reachable: an unknown timeframe gives 24 hourly points. The metric is
  the `Metric` datatype. The handler maps the three exact, case-sensitive
  names onto it.
- JavaScript's `x || base` on a number treats only 0 as falsy here, because
  NaN does not exist among reals (`MockData.Truthy`).
- A response is a value: a status, an ordered header list, and an error or
  data body.

Behaviour of the code that a reader might not expect:

- The direction is classified on the unrounded change, and only the stored
  change is rounded to one decimal. A stored `0.5` can therefore carry
  `increase` (`MockData.StoredChangeAtThresholdCanBeIncrease`). Away from
  ±0.5 the stored change and the direction agree
  (`MockData.StoredChangeAgreesWithDirection`).
- The `|| base` fallback of the p75 fires with no samples, and also when the
  selected sample is 0 (`MockData.P75FallsBackToBase`,
  `MockData.ZeroP75ReadsAsBase`). Every sample of the three configured
  metrics is positive, so on generated data this second fallback never fires
  (`MockData.GeneratedP75IsSample`).
- The reported p75 is the selected sample rounded to the metric's precision.
  For CLS that is three decimals, the samples' own precision, so the reported
  p75 is one of the point values (`MockData.ClsP75IsReportedSample`). For LCP
  and FID it is rounded to whole milliseconds, so in general it is not a
  sample value. It lies within half a millisecond of the selected sample
  (`MockData.ReportedP75NearSample`).

## Model

| member | source | states |
|---|---|---|
| Rounding.ToFixed | services/mockDataService.ts:40 | The rounded value has at most d decimals, lies within half a unit of the d-th decimal of the input, and keeps the input's sign. |
| Rounding.ToFixedIdempotent | services/mockDataService.ts:61 | Rounding a value that already has d decimals returns it unchanged. |
| Sorting.Sort | services/mockDataService.ts:54 | The numeric sort returns an ascending permutation of the values: same multiset, same length. |
| Sorting.SortedPermutationUnique | services/mockDataService.ts:54 | Two ascending lists with the same elements are equal, so any correct numeric sort gives the list the model uses. |
| Sorting.SortCounts | services/mockDataService.ts:54 | Sorting keeps, for every bound, how many values are at most it and how many are at least it. |
| Sorting.OrderStatistic | services/mockDataService.ts:54 | The element at sorted index k is one of the values; at least k+1 values are at most it and at least n-k are at least it. |
| Series.IntervalMs | services/mockDataService.ts:33-37 | An hourly step is exactly 3 600 000 ms and a daily step exactly 24 hours, 86 400 000 ms; both are positive. |
| Series.ShapeOf | services/mockDataService.ts:13-29 | "24h" gives 24 hourly points, "7d" 7 daily points and "30d" 30 daily points. Any other timeframe gives 24 hourly points. Every shape has 1 to 30 points, hourly exactly when 24. |
| Series.RawValue | services/mockDataService.ts:39 | `base + (r - 0.5) * fluctuation`: a draw of one half gives exactly the base, and for a positive fluctuation every draw in [0,1) gives a value in [base - fluctuation/2, base + fluctuation/2). |
| Series.SampleValue | services/mockDataService.ts:39-40 | A stored sample has three decimals and lies within half a thousandth of `base + (r - 0.5) * fluctuation`. |
| Series.Emit | services/mockDataService.ts:31-41 | The countdown loop from offset i emits i+1 points. Point k sits i-k steps before now and uses draw n-1-i+k. |
| Series.GenerateDataPoints | services/mockDataService.ts:7-43 | The series has the timeframe's point count. Point k sits n-1-k units before now and its value comes from draw k. |
| Series.CountdownTimeline | services/mockDataService.ts:31-41 | Points placed n-1-k steps before now, for a positive step, end at now, are exactly one step apart, and strictly increase in time. |
| Series.SeriesTimeline | services/mockDataService.ts:31-41 | The first point is n-1 units before now and the last point is at now. Consecutive points are exactly one unit apart, and times strictly increase. |
| Series.SeriesValueBounds | services/mockDataService.ts:39-40 | Every generated value's unrounded form lies in the half-open band, and the stored value lies within 0.0005 of that band. |
| Series.SeriesShapeIndependentOfDraws | services/mockDataService.ts:7-43 | For a timeframe, the length and the offsets from now do not depend on the clock reading or the draws. |
| MockData.MockApiData | services/mockDataService.ts:45-49 | The configuration table: LCP has base 1800 and fluctuation 400, FID 20 and 15, CLS 0.1 and 0.08. Every band lies strictly above zero. LCP and FID are in ms and CLS is unitless. |
| MockData.P75Decimals | services/mockDataService.ts:61 | The p75 is reported with three decimals exactly for CLS and none for LCP and FID, never finer than the samples' three decimals. |
| MockData.P75Index | services/mockDataService.ts:54 | `floor(0.75 n)` is the largest idx with 4·idx ≤ 3n, and it is a valid index of any non-empty list. |
| MockData.Truthy | services/mockDataService.ts:54 | The truthiness the `baseValue` fallback tests on a number: every negative and every positive value is truthy, and only zero is falsy. |
| MockData.RankedP75 | services/mockDataService.ts:54 | `sorted[Math.floor(n * 0.75)]` of a non-empty series is always one of its point values. |
| MockData.RankedP75IsOrderStatistic | services/mockDataService.ts:54 | The ranked sample is the 75th-percentile order statistic: at least floor(0.75n)+1 values are at most it and at least n - floor(0.75n) are at least it. |
| MockData.P75 | services/mockDataService.ts:54 | The p75 is never interpolated: it is one of the values or the base, and it is the base when there are no values. |
| MockData.P75IsOrderStatistic | services/mockDataService.ts:54 | When the selected element is non-zero, the p75 is that sorted element. It is one of the values, at least floor(0.75n)+1 values are ≤ it, and at least n - floor(0.75n) are ≥ it. |
| MockData.P75FallsBackToBase | services/mockDataService.ts:54 | With no values, or a zero at the p75 index, the result is the base. |
| MockData.ZeroP75ReadsAsBase | services/mockDataService.ts:54 | Concretely, the p75 of the single value 0 with base 20 is 20: a real zero reads as missing. |
| MockData.ChangeOf | services/mockDataService.ts:56 | The synthetic change drawn from [0,1) lies in [-5, 5). |
| MockData.Classify | services/mockDataService.ts:57 | The direction is increase iff change > 0.5, decrease iff change < -0.5, and neutral iff -0.5 ≤ change ≤ 0.5. |
| MockData.ComparisonOf | services/mockDataService.ts:56-66 | The stored change has one decimal, lies in [-5, 5] and within 0.05 of the drawn change. The direction follows the unrounded change. |
| MockData.RoundingStaysWithinFive | services/mockDataService.ts:64 | Rounding a change in [-5, 5) to one decimal stays within [-5, 5]. |
| MockData.ClsSevenDayScenario | services/mockDataService.ts:7-68 | CLS over 7d: seven points one UTC day apart ending at now. Point k holds the three-decimal sample of draw k for base 0.1 and fluctuation 0.08; its unrounded value lies in [0.06, 0.14) and its stored value in [0.0595, 0.1405]. The p75 has three decimals. |
| MockData.LcpDayScenario | services/mockDataService.ts:7-68 | LCP over 24h: twenty-four points one hour apart ending at now. Point k holds the three-decimal sample of draw k for base 1800 and fluctuation 400; its unrounded value lies in [1600, 2000) and its stored value in [1599.9995, 2000.0005]. The p75 is a whole number of ms. |
| MockData.StoredChangeAtThresholdCanBeIncrease | services/mockDataService.ts:56-64 | Draw 0.552 gives change 0.52. It is stored as 0.5 and classified as increase. |
| MockData.StoredChangeAgreesWithDirection | services/mockDataService.ts:56-64 | A stored change above 0.5 is an increase and one below -0.5 is a decrease. A neutral comparison stores a change in [-0.5, 0.5]. |
| MockData.GenerateAnalyticsData | services/mockDataService.ts:51-68 | The result echoes the metric and carries exactly the series generated for the metric's base and fluctuation, with the timeframe's length. The p75 is the element at index floor(0.75 n) of the ascending point values, rounded to the metric's precision (3 decimals for CLS, 0 otherwise). The comparison comes from the draw after the series. |
| MockData.ResultKeepsChronologicalOrder | services/mockDataService.ts:53-62 | Sorting for the p75 does not reorder the returned points. They stay strictly increasing and one interval apart, and the last is at now. |
| MockData.ResultValueBands | services/mockDataService.ts:39-53 | Every returned value is the three-decimal sample of its draw for the metric's table entry; its unrounded form lies in [base - fluctuation/2, base + fluctuation/2) and the stored value within 0.0005 of that band. |
| MockData.GeneratedP75IsSample | services/mockDataService.ts:45-54 | For every configured metric and every timeframe, the unrounded p75 of a generated series is one of its values. The fallback never fires. |
| MockData.ClsP75IsReportedSample | services/mockDataService.ts:54-61 | For CLS the reported p75 is itself one of the returned point values. |
| MockData.ReportedP75NearSample | services/mockDataService.ts:54-61 | The sorted element at index floor(0.75 n) is one of the returned point values, and the reported p75 lies within half a reporting unit of it. |
| MockData.ResultShapeIsStable | services/mockDataService.ts:51-68 | Two results for the same metric and timeframe have the same metric, the same length, and the same offsets from their clock readings. |
| MetricsHandler.BadRequest | functions/api/metrics.ts:36-39 | A rejection is status 400 with only the JSON content-type header, and its body is an error object carrying exactly the given message. |
| MetricsHandler.Rejected | functions/api/metrics.ts:35-42 | The test `!param`, or the whitelist does not include it: a parameter that passes is present and in the list. For a list without the empty string, it is rejected exactly when it is absent or not in the list. |
| MetricsHandler.MetricAccepted | functions/api/metrics.ts:35 | A metric parameter passes exactly when it is Some("LCP"), Some("FID") or Some("CLS"). |
| MetricsHandler.TimeframeAccepted | functions/api/metrics.ts:42 | A timeframe parameter passes exactly when it is Some("24h"), Some("7d") or Some("30d"). |
| MetricsHandler.MetricNamed | functions/api/metrics.ts:32-35 | A name maps to a metric exactly when it is one of "LCP", "FID", "CLS", and the metric's name is the input. |
| MetricsHandler.MetricNameRoundTrip | types.ts:1 | Mapping a metric's name back gives the same metric. |
| MetricsHandler.OnRequestGet | functions/api/metrics.ts:30-80 | An absent, empty or non-whitelisted metric gives 400 with the metric message, whatever the timeframe. Otherwise an invalid timeframe gives 400 with the timeframe message. The status is 200 exactly when both are whitelisted, and then the headers are JSON plus `public, max-age=60, s-maxage=300` and the body is data for that metric with the timeframe's point count. |
| MetricsHandler.SuccessDelegatesToGenerator | functions/api/metrics.ts:71-79 | A valid request's response body is exactly the generator's result for the same metric and timeframe. |
| MetricsHandler.LowerCaseMetricRejected | functions/api/metrics.ts:35 | The whitelist is case-sensitive: "lcp" is rejected with the metric message. |
| MetricsHandler.MetricCheckedBeforeTimeframe | functions/api/metrics.ts:35-47 | With both parameters bad, the metric message wins. A valid metric with timeframe "1y" gets the timeframe message, although the generator alone would treat "1y" as 24 hourly points. |

## Left out

- ISO-8601 serialisation of timestamps (`toISOString`) and JSON serialisation of bodies: points carry epoch milliseconds, and bodies are values.
- The JavaScript `Date` range limit: a clock reading outside ±8.64e15 ms would make `toISOString` throw. The model accepts any integer.
- IEEE-754 binary floating point: values are exact reals. A decimal like 0.1 is exact here, and `toFixed` works on the float's exact binary value, so ties can differ in the last place. `toFixed` switching to exponential notation at 1e21 is out of range for every value this engine produces.
- The artificial latency (`setTimeout` of 300 to 700 ms, functions/api/metrics.ts:50) and its `Math.random` draw: timing with no stateable result. The handler's draws are only those the generator consumes.
- MetricsHandler.OnRequestGet: requires enough draws for the generator when both parameters are valid, because the model's random source is finite while `Math.random` never runs out.
- URL and query-string parsing (`new URL`, `searchParams.get`): the handler receives the first decoded value of each parameter, or `None`.
- The Cloudflare `Env` / `PagesFunction` typings and the commented-out D1/KV storage code: not executable logic.
- The table's `unit` field is never read: the generator takes only the base value and the fluctuation, and the components derive the unit from the metric name.
- `services/analyticsService.ts` (local-versus-served detection, `fetch`, logging, error re-throw) and the React components (`App.tsx`, `components/*`): I/O and presentation, not part of this model.

=== FILE: metrics_handler.dfy ===
/**
 * The decision logic of the `GET /api/metrics` handler in
 * functions/api/metrics.ts (`onRequestGet`). The query parameters arrive
 * already decoded (`searchParams.get` gives the first value or nothing); the
 * response is a value rather than a serialised HTTP message.
 */
module MetricsHandler {
  import opened Types
  import Series
  import MockData

  /** Error text for a missing or unknown metric. */
  const MetricError: string := "Invalid or missing \"metric\" parameter. Use one of: LCP, FID, CLS."

  /** Error text for a missing or unknown timeframe. */
  const TimeframeError: string := "Invalid or missing \"timeframe\" parameter. Use one of: 24h, 7d, 30d."

  /** The metric whitelist, matched exactly and case-sensitively. */
  const AllowedMetrics: seq<string> := ["LCP", "FID", "CLS"]

  /** The timeframe whitelist, matched exactly and case-sensitively. */
  const AllowedTimeframes: seq<string> := ["24h", "7d", "30d"]

  /** One HTTP response header. */
  datatype Header = Header(name: string, value: string)

  /** The JSON body: an error object or the analytics result. */
  datatype Body = ErrorBody(error: string) | DataBody(data: AnalyticsData)

  /** A response: status code, headers in order, and body. */
  datatype Response = Response(status: nat, headers: seq<Header>, body: Body)

  const JsonHeader: Header := Header("Content-Type", "application/json")

  /** Lets browsers keep a result for 60 seconds and shared caches for 300. */
  const CacheHeader: Header := Header("Cache-Control", "public, max-age=60, s-maxage=300")

  /** The response for a rejected request: 400, JSON content type only. */
  function BadRequest(message: string): (resp: Response)
    ensures resp.status == 400
    ensures resp.body == ErrorBody(message)
    ensures resp.headers == [JsonHeader]
  {
    Response(400, [JsonHeader], ErrorBody(message))
  }

  /** `!param || !whitelist.includes(param)`: the parameter is absent, empty or not whitelisted. */
  predicate Rejected(param: Option<string>, whitelist: seq<string>): (rejected: bool)
    ensures !rejected ==> param.Some? && param.value in whitelist
    ensures "" !in whitelist ==> (rejected <==> param.None? || param.value !in whitelist)
  {
    param.None? || param.value == "" || param.value !in whitelist
  }

  /** A metric parameter passes exactly when it is one of the three names, spelled exactly. */
  lemma MetricAccepted(metric: Option<string>)
    ensures !Rejected(metric, AllowedMetrics) <==> metric in {Some("LCP"), Some("FID"), Some("CLS")}
  {
    assert "" !in AllowedMetrics;
  }

  /** A timeframe parameter passes exactly when it is one of the three windows, spelled exactly. */
  lemma TimeframeAccepted(timeframe: Option<string>)
    ensures !Rejected(timeframe, AllowedTimeframes) <==> timeframe in {Some("24h"), Some("7d"), Some("30d")}
  {
    assert "" !in AllowedTimeframes;
  }

  /** The metric a whitelisted name stands for; the inverse of `Metric.Name`. */
  function MetricNamed(name: string): (m: Option<Metric>)
    ensures m.Some? <==> name in AllowedMetrics
    ensures m.Some? ==> m.value.Name() == name
  {
    match name
    case "LCP" => Some(LCP)
    case "FID" => Some(FID)
    case "CLS" => Some(CLS)
    case _ => None
  }

  /** Naming a metric and reading the name back gives the same metric. */
  lemma MetricNameRoundTrip(m: Metric)
    ensures MetricNamed(m.Name()) == Some(m)
  {
  }

  /**
   * `onRequestGet`. The metric is checked first, then the timeframe; a
   * request that passes both is answered with the generator's result for
   * exactly those parameters and a cache directive. The draws are those the
   * generator consumes, and are needed only when it runs.
   */
  function OnRequestGet(metric: Option<string>, timeframe: Option<string>, now: int, draws: seq<real>)
    : (resp: Response)
    requires ValidDraws(draws)
    requires !Rejected(metric, AllowedMetrics) && !Rejected(timeframe, AllowedTimeframes) ==>
      |draws| > Series.ShapeOf(timeframe.value).numPoints
    ensures metric !in {Some("LCP"), Some("FID"), Some("CLS")} ==>
      resp == Response(400, [JsonHeader], ErrorBody(MetricError))
    ensures metric in {Some("LCP"), Some("FID"), Some("CLS")} && timeframe !in {Some("24h"), Some("7d"), Some("30d")} ==>
      resp == Response(400, [JsonHeader], ErrorBody(TimeframeError))
    ensures resp.status == 400 || resp.status == 200
    ensures resp.status == 200 <==>
      metric in {Some("LCP"), Some("FID"), Some("CLS")} && timeframe in {Some("24h"), Some("7d"), Some("30d")}
    ensures resp.status == 200 ==>
      && resp.headers == [JsonHeader, CacheHeader]
      && resp.body.DataBody?
      && resp.body.data.metric.Name() == metric.value
      && |resp.body.data.points| == Series.ShapeOf(timeframe.value).numPoints
  {
    MetricAccepted(metric);
    TimeframeAccepted(timeframe);
    if Rejected(metric, AllowedMetrics) then
      BadRequest(MetricError)
    else if Rejected(timeframe, AllowedTimeframes) then
      BadRequest(TimeframeError)
    else
      var m := MetricNamed(metric.value);
      Response(200, [JsonHeader, CacheHeader],
        DataBody(MockData.GenerateAnalyticsData(m.value, timeframe.value, now, draws)))
  }

  /** A successful response carries exactly the generator's result for the requested metric and timeframe. */
  lemma SuccessDelegatesToGenerator(m: Metric, timeframe: string, now: int, draws: seq<real>)
    requires timeframe in AllowedTimeframes
    requires ValidDraws(draws) && |draws| > Series.ShapeOf(timeframe).numPoints
    ensures OnRequestGet(Some(m.Name()), Some(timeframe), now, draws)
      == Response(200, [JsonHeader, CacheHeader],
                  DataBody(MockData.GenerateAnalyticsData(m, timeframe, now, draws)))
  {
    MetricNameRoundTrip(m);
    assert !Rejected(Some(m.Name()), AllowedMetrics);
    assert !Rejected(Some(timeframe), AllowedTimeframes);
  }

  /** Whitelists are case-sensitive: a lower-case metric is rejected even with a valid timeframe. */
  lemma LowerCaseMetricRejected(now: int, draws: seq<real>)
    requires ValidDraws(draws)
    ensures OnRequestGet(Some("lcp"), Some("24h"), now, draws) == BadRequest(MetricError)
  {
  }

  /**
   * When both parameters are bad the metric error wins; an unknown timeframe
   * is rejected at the boundary although the synthesiser itself would have
   * accepted it as 24 hourly points.
   */
  lemma MetricCheckedBeforeTimeframe(now: int, draws: seq<real>)
    requires ValidDraws(draws)
    ensures OnRequestGet(Some("TTFB"), Some("1y"), now, draws) == BadRequest(MetricError)
    ensures OnRequestGet(Some("CLS"), Some("1y"), now, draws) == BadRequest(TimeframeError)
    ensures Series.ShapeOf("1y") == Series.Shape(24, Hour)
  {
  }
}

=== FILE: mock_data.dfy ===
/**
 * The aggregator of services/mockDataService.ts (`mockApiData` and
 * `generateAnalyticsData`): it synthesises a series for the metric's
 * baseline, selects its 75th-percentile value and draws a synthetic
 * period-over-period change. The series consumes the first n draws of the
 * random stream and the change consumes draw n.
 */
module MockData {
  import opened Types
  import Rounding
  import Sorting
  import Series

  /** The per-metric entry of `mockApiData`. */
  datatype MetricConfig = MetricConfig(baseValue: real, fluctuation: real, unit: string)

  /**
   * The fixed per-metric table. Every entry has a positive fluctuation
   * narrower than twice its baseline, so every sample band lies strictly
   * above zero.
   */
  function MockApiData(metric: Metric): (config: MetricConfig)
    ensures metric == LCP ==> config.baseValue == 1800.0 && config.fluctuation == 400.0
    ensures metric == FID ==> config.baseValue == 20.0 && config.fluctuation == 15.0
    ensures metric == CLS ==> config.baseValue == 0.1 && config.fluctuation == 0.08
    ensures config.fluctuation > 0.0
    ensures config.baseValue - config.fluctuation / 2.0 > 0.0
    ensures config.unit == (if metric == CLS then "" else "ms")
  {
    match metric
    case LCP => MetricConfig(1800.0, 400.0, "ms")
    case FID => MetricConfig(20.0, 15.0, "ms")
    case CLS => MetricConfig(0.1, 0.08, "")
  }

  /** Decimal places the p75 is reported with: three for CLS, none for the millisecond metrics. */
  function P75Decimals(metric: Metric): (d: nat)
    ensures d <= Series.SampleDecimals
    ensures metric != CLS ==> d == 0
    ensures d == Series.SampleDecimals <==> metric == CLS
  {
    if metric == CLS then 3 else 0
  }

  /** Decimal places the change is reported with (`toFixed(1)`). */
  const ChangeDecimals: nat := 1

  /**
   * `Math.floor(n * 0.75)`: the greatest index whose quadruple does not
   * exceed three times the length. It is a valid index of any non-empty list.
   */
  function P75Index(n: nat): (idx: nat)
    ensures 4 * idx <= 3 * n < 4 * idx + 4
    ensures n >= 1 ==> idx < n
  {
    ((n as real) * 0.75).Floor
  }

  /** JavaScript truthiness of a number (NaN cannot arise on reals): only zero is falsy. */
  predicate Truthy(x: real): (t: bool)
    ensures t <==> x < 0.0 || 0.0 < x
  {
    x != 0.0
  }

  /**
   * `values.sort((a, b) => a - b)[Math.floor(n * 0.75)] || base`: the value
   * at the p75 index of the ascending values, or the base when that element
   * is missing (no values) or falsy (zero). It is never interpolated.
   */
  function P75(values: seq<real>, base: real): (p: real)
    ensures p in values || p == base
    ensures values == [] ==> p == base
  {
    var sorted := Sorting.Sort(values);
    var idx := P75Index(|sorted|);
    if idx < |sorted| && Truthy(sorted[idx]) then
      assert sorted[idx] in multiset(values);
      sorted[idx]
    else
      base
  }

  /** `sorted[Math.floor(n * 0.75)]` for a non-empty series: always one of the point values. */
  function RankedP75(points: seq<Point>): (ranked: real)
    requires points != []
    ensures ranked in Values(points)
  {
    Sorting.OrderStatistic(Values(points), P75Index(|points|));
    Sorting.Sort(Values(points))[P75Index(|points|)]
  }

  /**
   * The ranked sample is the 75th-percentile order statistic of the point
   * values: at least floor(0.75 n) + 1 values are at most it and at least
   * n - floor(0.75 n) are at least it.
   */
  lemma RankedP75IsOrderStatistic(points: seq<Point>)
    requires points != []
    ensures Sorting.CountAtMost(Values(points), RankedP75(points)) >= P75Index(|points|) + 1
    ensures Sorting.CountAtLeast(Values(points), RankedP75(points)) >= |points| - P75Index(|points|)
  {
    Sorting.OrderStatistic(Values(points), P75Index(|points|));
  }

  /** The synthetic change, `Math.random() * 10 - 5`, a percentage in [-5, 5). */
  function ChangeOf(r: real): (change: real)
    requires 0.0 <= r < 1.0
    ensures -5.0 <= change < 5.0
  {
    r * 10.0 - 5.0
  }

  /** Direction of a change: beyond half a percent either way it is an increase or decrease. */
  function Classify(change: real): (t: ChangeType)
    ensures t == Increase <==> change > 0.5
    ensures t == Decrease <==> change < -0.5
    ensures t == Neutral <==> -0.5 <= change <= 0.5
  {
    if change > 0.5 then Increase
    else if change < -0.5 then Decrease
    else Neutral
  }

  /**
   * The comparison assembled from one draw: the direction is classified on
   * the unrounded change and only the stored change is rounded to one decimal.
   */
  function ComparisonOf(r: real): (c: Comparison)
    requires 0.0 <= r < 1.0
    ensures -5.0 <= c.change <= 5.0
    ensures Rounding.IsDecimal(c.change, ChangeDecimals)
    ensures -0.05 <= c.change - ChangeOf(r) <= 0.05
    ensures c.changeType == Increase <==> r * 10.0 - 5.0 > 0.5
    ensures c.changeType == Decrease <==> r * 10.0 - 5.0 < -0.5
  {
    var change := ChangeOf(r);
    var stored := Rounding.ToFixed(change, ChangeDecimals);
    assert Rounding.Scale(ChangeDecimals) == 10.0;
    assert -0.5 <= (stored - change) * 10.0 <= 0.5;
    RoundingStaysWithinFive(change);
    Comparison(stored, Classify(change))
  }

  /** One-decimal rounding of a value in [-5, 5) stays within [-5, 5]. */
  lemma RoundingStaysWithinFive(change: real)
    requires -5.0 <= change < 5.0
    ensures -5.0 <= Rounding.ToFixed(change, 1) <= 5.0
  {
    var y := Rounding.ToFixed(change, 1);
    assert Rounding.Scale(1) == 10.0;
    var k := (y * 10.0).Floor;
    assert k as real == y * 10.0;
    assert -50.5 <= k as real <= 50.5;
    assert -50 <= k <= 50;
  }

  /**
   * `generateAnalyticsData(metric, timeframe)`: the result echoes the metric,
   * carries the synthesised series unchanged and in chronological order, the
   * p75 of its values rounded to the metric's precision, and the comparison
   * built from the draw that follows the series' draws.
   */
  function GenerateAnalyticsData(metric: Metric, timeframe: string, now: int, draws: seq<real>)
    : (data: AnalyticsData)
    requires ValidDraws(draws)
    requires |draws| > Series.ShapeOf(timeframe).numPoints
    ensures data.metric == metric
    ensures data.points == Series.GenerateDataPoints(
      timeframe, MockApiData(metric).baseValue, MockApiData(metric).fluctuation, now, draws)
    ensures |data.points| == Series.ShapeOf(timeframe).numPoints
    ensures Rounding.IsDecimal(data.p75, P75Decimals(metric))
    ensures data.p75 == Rounding.ToFixed(RankedP75(data.points), P75Decimals(metric))
    ensures data.comparison == ComparisonOf(draws[Series.ShapeOf(timeframe).numPoints])
  {
    var config := MockApiData(metric);
    var points := Series.GenerateDataPoints(timeframe, config.baseValue, config.fluctuation, now, draws);
    var p75 := P75(Values(points), config.baseValue);
    GeneratedP75IsSample(metric, timeframe, now, draws);
    AnalyticsData(
      metric,
      Rounding.ToFixed(p75, P75Decimals(metric)),
      points,
      ComparisonOf(draws[|points|]))
  }

  /**
   * Sorting the values for the p75 does not touch the returned series: the
   * result's points stay oldest first, one interval apart, the last at now.
   */
  lemma ResultKeepsChronologicalOrder(metric: Metric, timeframe: string, now: int, draws: seq<real>)
    requires ValidDraws(draws)
    requires |draws| > Series.ShapeOf(timeframe).numPoints
    ensures var data := GenerateAnalyticsData(metric, timeframe, now, draws);
      && Series.Chronological(data.points)
      && Series.UniformlySpaced(data.points, Series.IntervalMs(Series.ShapeOf(timeframe).interval))
      && data.points[|data.points| - 1].time == now
  {
    var data := GenerateAnalyticsData(metric, timeframe, now, draws);
    var step := Series.IntervalMs(Series.ShapeOf(timeframe).interval);
    assert Series.EndsAtNow(data.points, now, step);
    Series.CountdownTimeline(data.points, now, step);
  }

  /**
   * The p75 selection is an order statistic of the values: when the
   * selected element is non-zero it is one of the values, at least
   * floor(0.75 n) + 1 values are at most it and at least n - floor(0.75 n)
   * are at least it; in particular it is at least the minimum.
   */
  lemma P75IsOrderStatistic(values: seq<real>, base: real)
    requires values != []
    requires Truthy(Sorting.Sort(values)[P75Index(|values|)])
    ensures P75(values, base) == Sorting.Sort(values)[P75Index(|values|)]
    ensures P75(values, base) in values
    ensures Sorting.CountAtMost(values, P75(values, base)) >= P75Index(|values|) + 1
    ensures Sorting.CountAtLeast(values, P75(values, base)) >= |values| - P75Index(|values|)
  {
    Sorting.OrderStatistic(values, P75Index(|values|));
  }

  /**
   * The `|| base` fallback: with no values, or when the selected element is
   * zero, the p75 is the base. A genuine zero at the p75 index is therefore
   * indistinguishable from a missing element.
   */
  lemma P75FallsBackToBase(values: seq<real>, base: real)
    requires values == [] || !Truthy(Sorting.Sort(values)[P75Index(|values|)])
    ensures P75(values, base) == base
  {
  }

  /** A concrete instance of the quirk: the p75 of a single zero reading is the base, not zero. */
  lemma ZeroP75ReadsAsBase()
    ensures P75([0.0], 20.0) == 20.0
  {
    assert Sorting.Sort([0.0]) == [0.0];
  }

  /**
   * For the metrics of the table the fallback never fires on a generated
   * series: every sample is positive, so the selected element is truthy and
   * the unrounded p75 is always one of the generated values.
   */
  lemma GeneratedP75IsSample(metric: Metric, timeframe: string, now: int, draws: seq<real>)
    requires ValidDraws(draws)
    requires |draws| >= Series.ShapeOf(timeframe).numPoints
    ensures var config := MockApiData(metric);
      var points := Series.GenerateDataPoints(timeframe, config.baseValue, config.fluctuation, now, draws);
      && P75(Values(points), config.baseValue) in Values(points)
      && P75(Values(points), config.baseValue) == Sorting.Sort(Values(points))[P75Index(|points|)]
  {
    var config := MockApiData(metric);
    var points := Series.GenerateDataPoints(timeframe, config.baseValue, config.fluctuation, now, draws);
    var values := Values(points);
    Series.SeriesValueBounds(timeframe, config.baseValue, config.fluctuation, now, draws);
    assert config.baseValue - config.fluctuation / 2.0 - 0.0005 > 0.0;
    assert forall k :: 0 <= k < |values| ==> values[k] > 0.0;
    var sorted := Sorting.Sort(values);
    var idx := P75Index(|values|);
    assert sorted[idx] in multiset(values);
    assert sorted[idx] > 0.0;
    P75IsOrderStatistic(values, config.baseValue);
  }

  /**
   * For CLS the reported p75 is itself one of the generated values: samples
   * already carry three decimals, so rounding the selected sample to three
   * decimals leaves it unchanged.
   */
  lemma ClsP75IsReportedSample(timeframe: string, now: int, draws: seq<real>)
    requires ValidDraws(draws)
    requires |draws| > Series.ShapeOf(timeframe).numPoints
    ensures var data := GenerateAnalyticsData(CLS, timeframe, now, draws);
      data.p75 in Values(data.points)
  {
    var config := MockApiData(CLS);
    var data := GenerateAnalyticsData(CLS, timeframe, now, draws);
    var values := Values(data.points);
    GeneratedP75IsSample(CLS, timeframe, now, draws);
    var p := P75(values, config.baseValue);
    var k :| 0 <= k < |values| && values[k] == p;
    assert Rounding.IsDecimal(p, Series.SampleDecimals);
    Rounding.ToFixedIdempotent(p, 3);
  }

  /**
   * The reported p75 is the sample at index floor(0.75 n) of the ascending
   * values, rounded to the metric's precision: it lies within half a
   * reporting unit (half a millisecond for LCP and FID, half a thousandth for
   * CLS) of that sample, which is one of the returned point values.
   */
  lemma ReportedP75NearSample(metric: Metric, timeframe: string, now: int, draws: seq<real>)
    requires ValidDraws(draws)
    requires |draws| > Series.ShapeOf(timeframe).numPoints
    ensures var data := GenerateAnalyticsData(metric, timeframe, now, draws);
      var ranked := RankedP75(data.points);
      && ranked in Values(data.points)
      && Rounding.WithinHalfUnit(data.p75, ranked, P75Decimals(metric))
  {
    var data := GenerateAnalyticsData(metric, timeframe, now, draws);
    var values := Values(data.points);
    var idx := P75Index(|data.points|);
    assert Sorting.Sort(values)[idx] in multiset(values);
  }

  /**
   * Every returned value is its draw's sample for the metric's table entry:
   * the unrounded value lies in [base - fluctuation/2, base + fluctuation/2)
   * and the stored value within half a thousandth of that band.
   */
  lemma ResultValueBands(metric: Metric, timeframe: string, now: int, draws: seq<real>)
    requires ValidDraws(draws)
    requires |draws| > Series.ShapeOf(timeframe).numPoints
    ensures var data := GenerateAnalyticsData(metric, timeframe, now, draws);
      var base, fluctuation := MockApiData(metric).baseValue, MockApiData(metric).fluctuation;
      forall k :: 0 <= k < |data.points| ==>
        && data.points[k].value == Series.SampleValue(base, fluctuation, draws[k])
        && base - fluctuation / 2.0 <= Series.RawValue(base, fluctuation, draws[k]) < base + fluctuation / 2.0
        && base - fluctuation / 2.0 - 0.0005 <= data.points[k].value <= base + fluctuation / 2.0 + 0.0005
  {
    var config := MockApiData(metric);
    Series.SeriesValueBounds(timeframe, config.baseValue, config.fluctuation, now, draws);
  }

  /**
   * `generateAnalyticsData('CLS', '7d')`: seven points one UTC day apart
   * ending at now, each unrounded value in [0.06, 0.14), and a p75 with three
   * decimals.
   */
  lemma ClsSevenDayScenario(now: int, draws: seq<real>)
    requires ValidDraws(draws) && |draws| > 7
    ensures var data := GenerateAnalyticsData(CLS, "7d", now, draws);
      && |data.points| == 7
      && data.points[6].time == now
      && (forall k :: 0 <= k < 6 ==> data.points[k + 1].time == data.points[k].time + 86_400_000)
      && (forall k :: 0 <= k < 7 ==> 0.06 <= Series.RawValue(0.1, 0.08, draws[k]) < 0.14)
      && (forall k :: 0 <= k < 7 ==> data.points[k].value == Series.SampleValue(0.1, 0.08, draws[k]))
      && (forall k :: 0 <= k < 7 ==> 0.06 - 0.0005 <= data.points[k].value <= 0.14 + 0.0005)
      && Rounding.IsDecimal(data.p75, 3)
  {
    ResultKeepsChronologicalOrder(CLS, "7d", now, draws);
    ResultValueBands(CLS, "7d", now, draws);
    var data := GenerateAnalyticsData(CLS, "7d", now, draws);
    assert MockApiData(CLS).baseValue - MockApiData(CLS).fluctuation / 2.0 == 0.06;
    assert MockApiData(CLS).baseValue + MockApiData(CLS).fluctuation / 2.0 == 0.14;
  }

  /**
   * `generateAnalyticsData('LCP', '24h')`: twenty-four points one hour apart
   * ending at now, each unrounded value in [1600, 2000), and a whole-number
   * p75.
   */
  lemma LcpDayScenario(now: int, draws: seq<real>)
    requires ValidDraws(draws) && |draws| > 24
    ensures var data := GenerateAnalyticsData(LCP, "24h", now, draws);
      && |data.points| == 24
      && data.points[23].time == now
      && (forall k :: 0 <= k < 23 ==> data.points[k + 1].time == data.points[k].time + 3_600_000)
      && (forall k :: 0 <= k < 24 ==> 1600.0 <= Series.RawValue(1800.0, 400.0, draws[k]) < 2000.0)
      && (forall k :: 0 <= k < 24 ==> data.points[k].value == Series.SampleValue(1800.0, 400.0, draws[k]))
      && (forall k :: 0 <= k < 24 ==> 1600.0 - 0.0005 <= data.points[k].value <= 2000.0 + 0.0005)
      && Rounding.IsDecimal(data.p75, 0)
  {
    ResultKeepsChronologicalOrder(LCP, "24h", now, draws);
    ResultValueBands(LCP, "24h", now, draws);
    var data := GenerateAnalyticsData(LCP, "24h", now, draws);
    assert MockApiData(LCP).baseValue - MockApiData(LCP).fluctuation / 2.0 == 1600.0;
    assert MockApiData(LCP).baseValue + MockApiData(LCP).fluctuation / 2.0 == 2000.0;
  }

  /**
   * The stored change may disagree with the direction near the thresholds:
   * a draw of 0.552 gives a change of 0.52, classified as an increase, while
   * the stored change reads 0.5.
   */
  lemma StoredChangeAtThresholdCanBeIncrease()
    ensures ComparisonOf(0.552) == Comparison(0.5, Increase)
  {
    assert ChangeOf(0.552) == 0.52;
    assert (0.52 * 10.0 + 0.5).Floor == 5;
  }

  /**
   * Away from the thresholds the stored change agrees with the direction: a
   * stored change above 0.5 is an increase, below -0.5 a decrease, and a
   * neutral comparison stores a change within [-0.5, 0.5].
   */
  lemma StoredChangeAgreesWithDirection(r: real)
    requires 0.0 <= r < 1.0
    ensures ComparisonOf(r).change > 0.5 ==> ComparisonOf(r).changeType == Increase
    ensures ComparisonOf(r).change < -0.5 ==> ComparisonOf(r).changeType == Decrease
    ensures ComparisonOf(r).changeType == Neutral ==> -0.5 <= ComparisonOf(r).change <= 0.5
  {
    var c := ComparisonOf(r);
    var change := ChangeOf(r);
    var k := (c.change * 10.0).Floor;
    assert Rounding.Scale(1) == 10.0;
    assert k as real == c.change * 10.0;
    if c.change > 0.5 {
      assert k >= 6;
      assert change > 0.5;
    }
    if c.change < -0.5 {
      assert k <= -6;
      assert change < -0.5;
    }
    if c.changeType == Neutral {
      assert -5.5 <= k as real <= 5.5;
      assert -5 <= k <= 5;
    }
  }

  /**
   * Repeated requests for the same metric and timeframe give results of the
   * same shape: the same metric and the same number of points at the same
   * offsets from their clock, whatever the clock reading and the draws.
   */
  lemma ResultShapeIsStable(metric: Metric, timeframe: string,
                            now1: int, draws1: seq<real>, now2: int, draws2: seq<real>)
    requires ValidDraws(draws1) && |draws1| > Series.ShapeOf(timeframe).numPoints
    requires ValidDraws(draws2) && |draws2| > Series.ShapeOf(timeframe).numPoints
    ensures var d1 := GenerateAnalyticsData(metric, timeframe, now1, draws1);
      var d2 := GenerateAnalyticsData(metric, timeframe, now2, draws2);
      && d1.metric == d2.metric
      && |d1.points| == |d2.points|
      && forall k :: 0 <= k < |d1.points| ==> d1.points[k].time - now1 == d2.points[k].time - now2
  {
    var config := MockApiData(metric);
    Series.SeriesShapeIndependentOfDraws(timeframe, config.baseValue, config.fluctuation, now1, draws1, now2, draws2);
  }
}

=== FILE: rounding.dfy ===
/**
 * Decimal rounding as performed by `parseFloat(x.toFixed(d))`, stated on exact
 * reals. `toFixed` writes a negative number as "-" followed by the rendering
 * of its magnitude, and renders a magnitude with the integer n closest to
 * x * 10^d, choosing the larger n on a tie; so the result is the nearest
 * multiple of 10^-d with halves rounded away from zero.
 */
module Rounding {

  /** 10^d. */
  function Pow10(d: nat): (p: nat)
    ensures p >= 1
  {
    if d == 0 then 1 else 10 * Pow10(d - 1)
  }

  /** 10^d as a real scale factor. */
  function Scale(d: nat): (s: real)
    ensures s >= 1.0
  {
    Pow10(d) as real
  }

  /** x has at most d digits after the decimal point. */
  predicate IsDecimal(x: real, d: nat) {
    IsMultipleOf(x, Scale(d))
  }

  /** y is within half a unit of the d-th decimal place of x. */
  predicate WithinHalfUnit(y: real, x: real, d: nat) {
    -0.5 <= (y - x) * Scale(d) <= 0.5
  }

  /** x is a whole multiple of 1/s. */
  predicate IsMultipleOf(x: real, s: real) {
    (x * s).Floor as real == x * s
  }

  /** Round a non-negative magnitude half-up to a whole multiple of 1/s. */
  function RoundHalfUp(x: real, s: real): real
    requires s > 0.0
  {
    (x * s + 0.5).Floor as real / s
  }

  /** Half-up rounding of a magnitude is a non-negative multiple of 1/s within half a step. */
  lemma RoundHalfUpSpec(x: real, s: real)
    requires x >= 0.0 && s > 0.0
    ensures RoundHalfUp(x, s) >= 0.0
    ensures IsMultipleOf(RoundHalfUp(x, s), s)
    ensures -0.5 <= (RoundHalfUp(x, s) - x) * s <= 0.5
  {
    var n := (x * s + 0.5).Floor;
    var q := n as real;
    assert RoundHalfUp(x, s) == q / s;
    var r := RoundHalfUp(x, s);
    assert r * s == q;
    assert (r * s).Floor == n;
    assert IsMultipleOf(r, s);
  }

  /** A non-negative multiple of 1/s rounds to itself. */
  lemma RoundHalfUpExact(v: real, s: real)
    requires v >= 0.0 && s > 0.0 && IsMultipleOf(v, s)
    ensures RoundHalfUp(v, s) == v
  {
    var k := (v * s).Floor;
    assert (v * s + 0.5).Floor == k;
    assert RoundHalfUp(v, s) == (v * s) / s;
  }

  /** Negation keeps a multiple of 1/s a multiple of 1/s. */
  lemma NegIsMultiple(m: real, s: real)
    requires IsMultipleOf(m, s)
    ensures IsMultipleOf(-m, s)
  {
    var k := (m * s).Floor;
    assert (-m) * s == (-k) as real;
  }

  /** Rounding the magnitude of a negative x and restoring the sign gives a non-positive d-decimal value within half a unit of x. */
  lemma NegatedRoundSpec(x: real, d: nat)
    requires x < 0.0
    ensures -RoundHalfUp(-x, Scale(d)) <= 0.0
    ensures IsDecimal(-RoundHalfUp(-x, Scale(d)), d)
    ensures WithinHalfUnit(-RoundHalfUp(-x, Scale(d)), x, d)
  {
    var s := Scale(d);
    var m := RoundHalfUp(-x, s);
    RoundHalfUpSpec(-x, s);
    NegIsMultiple(m, s);
    assert (-m - x) * s == -((m - (-x)) * s);
  }

  /** Rounding a non-negative x gives a non-negative d-decimal value within half a unit of x. */
  lemma PlainRoundSpec(x: real, d: nat)
    requires x >= 0.0
    ensures RoundHalfUp(x, Scale(d)) >= 0.0
    ensures IsDecimal(RoundHalfUp(x, Scale(d)), d)
    ensures WithinHalfUnit(RoundHalfUp(x, Scale(d)), x, d)
  {
    RoundHalfUpSpec(x, Scale(d));
  }

  /** `parseFloat(x.toFixed(d))` on exact reals. */
  function ToFixed(x: real, d: nat): (y: real)
    ensures IsDecimal(y, d)
    ensures WithinHalfUnit(y, x, d)
    ensures x >= 0.0 ==> y >= 0.0
    ensures x <= 0.0 ==> y <= 0.0
  {
    if x < 0.0 then
      NegatedRoundSpec(x, d);
      -RoundHalfUp(-x, Scale(d))
    else
      PlainRoundSpec(x, d);
      RoundHalfUp(x, Scale(d))
  }

  /** Rounding a value that already has d decimals leaves it unchanged. */
  lemma ToFixedIdempotent(x: real, d: nat)
    requires IsDecimal(x, d)
    ensures ToFixed(x, d) == x
  {
    var s := Scale(d);
    if x < 0.0 {
      NegIsMultiple(x, s);
      RoundHalfUpExact(-x, s);
    } else {
      RoundHalfUpExact(x, s);
    }
  }
}

=== FILE: series.dfy ===
/**
 * The time-series synthesiser of services/mockDataService.ts
 * (`generateDataPoints`). The clock reading "now" is an epoch-millisecond
 * parameter and `Math.random` is a caller-supplied stream of draws in [0, 1):
 * the point emitted k-th consumes draw k. Hour and day steps are done in UTC
 * (`setUTCHours`, `setUTCDate`), where they are fixed lengths.
 */
module Series {
  import opened Types
  import Rounding

  /** Milliseconds in one UTC hour. */
  const HourMs: int := 3_600_000

  /** Milliseconds in one UTC day; UTC has no daylight-saving shifts. */
  const DayMs: int := 86_400_000

  /** Decimal places a sample value is rounded to (`toFixed(3)`). */
  const SampleDecimals: nat := 3

  /** Length of one interval unit in milliseconds. */
  function IntervalMs(interval: Interval): (ms: int)
    ensures ms > 0
    ensures interval == Hour ==> ms == HourMs
    ensures interval == Day ==> ms == 24 * HourMs
  {
    match interval
    case Hour => HourMs
    case Day => DayMs
  }

  /** How many points a timeframe asks for, and how far apart they are. */
  datatype Shape = Shape(numPoints: nat, interval: Interval)

  /** The timeframes the synthesiser recognises; anything else takes the default branch. */
  const KnownTimeframes: seq<string> := ["24h", "7d", "30d"]

  /**
   * The `switch (timeframe)` of the synthesiser. It is total: a timeframe it
   * does not recognise takes the default branch, 24 hourly points.
   */
  function ShapeOf(timeframe: string): (shape: Shape)
    ensures 1 <= shape.numPoints <= 30
    ensures shape.interval == Hour <==> shape.numPoints == 24
    ensures timeframe == "24h" ==> shape == Shape(24, Hour)
    ensures timeframe == "7d" ==> shape == Shape(7, Day)
    ensures timeframe == "30d" ==> shape == Shape(30, Day)
    ensures timeframe !in KnownTimeframes ==> shape == Shape(24, Hour)
  {
    match timeframe
    case "24h" => Shape(24, Hour)
    case "7d" => Shape(7, Day)
    case "30d" => Shape(30, Day)
    case _ => Shape(24, Hour)
  }

  /** The unrounded sample value: the base plus a draw-scaled fluctuation, `base + (r - 0.5) * fluctuation`. */
  function RawValue(base: real, fluctuation: real, r: real): (v: real)
    ensures r == 0.5 ==> v == base
    ensures fluctuation > 0.0 && 0.0 <= r < 1.0 ==>
      base - fluctuation / 2.0 <= v < base + fluctuation / 2.0
  {
    var t := r * fluctuation;
    assert fluctuation > 0.0 && 0.0 <= r < 1.0 ==> 0.0 <= t < fluctuation by {
      if fluctuation > 0.0 && 0.0 <= r < 1.0 {
        assert (1.0 - r) * fluctuation > 0.0;
      }
    }
    assert (r - 0.5) * fluctuation == t - fluctuation / 2.0;
    base + (r - 0.5) * fluctuation
  }

  /** The stored sample value, `parseFloat(raw.toFixed(3))`. */
  function SampleValue(base: real, fluctuation: real, r: real): (v: real)
    ensures Rounding.IsDecimal(v, SampleDecimals)
    ensures Rounding.WithinHalfUnit(v, RawValue(base, fluctuation, r), SampleDecimals)
  {
    Rounding.ToFixed(RawValue(base, fluctuation, r), SampleDecimals)
  }

  /**
   * The points the loop `for (i = n - 1; i >= 0; i--)` emits from iteration
   * i onwards: the point for offset i uses draw n - 1 - i and sits i steps
   * before now. Point k of the result therefore sits i - k steps before now.
   */
  function Emit(i: int, n: nat, step: int, base: real, fluctuation: real, now: int, draws: seq<real>)
    : (points: seq<Point>)
    requires -1 <= i < n <= |draws|
    decreases i + 1
    ensures |points| == i + 1
    ensures forall k :: 0 <= k <= i ==>
      points[k] == Point(now - (i - k) * step, SampleValue(base, fluctuation, draws[n - 1 - i + k]))
  {
    if i < 0 then
      []
    else
      [Point(now - i * step, SampleValue(base, fluctuation, draws[n - 1 - i]))]
        + Emit(i - 1, n, step, base, fluctuation, now, draws)
  }

  /**
   * `generateDataPoints(timeframe, base, fluctuation)`: one point per
   * interval unit, oldest first, the last at now. Point k sits n - 1 - k
   * units before now and its value comes from draw k.
   */
  function GenerateDataPoints(timeframe: string, base: real, fluctuation: real, now: int, draws: seq<real>)
    : (points: seq<Point>)
    requires |draws| >= ShapeOf(timeframe).numPoints
    ensures |points| == ShapeOf(timeframe).numPoints
    ensures forall k :: 0 <= k < |points| ==>
      points[k].time == now - (|points| - 1 - k) * IntervalMs(ShapeOf(timeframe).interval)
    ensures forall k :: 0 <= k < |points| ==>
      points[k].value == SampleValue(base, fluctuation, draws[k])
  {
    var shape := ShapeOf(timeframe);
    Emit(shape.numPoints - 1, shape.numPoints, IntervalMs(shape.interval), base, fluctuation, now, draws)
  }

  /** Consecutive points are exactly one step apart: no gaps, no repeats. */
  predicate UniformlySpaced(points: seq<Point>, step: int) {
    forall k :: 0 <= k < |points| - 1 ==> points[k + 1].time == points[k].time + step
  }

  /** Timestamps strictly increase along the series. */
  predicate Chronological(points: seq<Point>) {
    forall i, j :: 0 <= i < j < |points| ==> points[i].time < points[j].time
  }

  /** A uniformly spaced series with a positive step is strictly increasing in time. */
  lemma {:induction false} UniformIsChronological(points: seq<Point>, step: int)
    requires step > 0
    requires UniformlySpaced(points, step)
    ensures Chronological(points)
  {
    if |points| > 1 {
      var rest := points[1..];
      assert UniformlySpaced(rest, step) by {
        forall k | 0 <= k < |rest| - 1
          ensures rest[k + 1].time == rest[k].time + step
        {
          assert rest[k + 1] == points[k + 2] && rest[k] == points[k + 1];
        }
      }
      UniformIsChronological(rest, step);
      forall i, j | 0 <= i < j < |points|
        ensures points[i].time < points[j].time
      {
        if i > 0 {
          assert points[i] == rest[i - 1] && points[j] == rest[j - 1];
        } else {
          assert points[1].time == points[0].time + step;
          if j > 1 {
            assert points[1] == rest[0] && points[j] == rest[j - 1];
          }
        }
      }
    }
  }

  /** Points placed n - 1 - k steps before now form a uniformly spaced, chronological series ending at now. */
  predicate EndsAtNow(points: seq<Point>, now: int, step: int) {
    forall k :: 0 <= k < |points| ==> points[k].time == now - (|points| - 1 - k) * step
  }

  /** A series ending at now with a fixed positive step is uniformly spaced and chronological. */
  lemma CountdownTimeline(points: seq<Point>, now: int, step: int)
    requires step > 0 && points != []
    requires EndsAtNow(points, now, step)
    ensures points[|points| - 1].time == now
    ensures UniformlySpaced(points, step)
    ensures Chronological(points)
  {
    var n := |points|;
    forall k | 0 <= k < n - 1
      ensures points[k + 1].time == points[k].time + step
    {
      assert points[k].time == now - (n - 1 - k) * step;
      assert points[k + 1].time == now - (n - 1 - (k + 1)) * step;
      assert (n - 1 - k) * step == (n - 1 - (k + 1)) * step + step;
    }
    UniformIsChronological(points, step);
  }

  /**
   * The generated series has the canonical length for its timeframe, starts
   * n - 1 units before now, ends exactly at now, is spaced one unit apart and
   * is strictly increasing in time.
   */
  lemma SeriesTimeline(timeframe: string, base: real, fluctuation: real, now: int, draws: seq<real>)
    requires |draws| >= ShapeOf(timeframe).numPoints
    ensures var points := GenerateDataPoints(timeframe, base, fluctuation, now, draws);
      var shape := ShapeOf(timeframe);
      && |points| == shape.numPoints
      && points[0].time == now - (shape.numPoints - 1) * IntervalMs(shape.interval)
      && points[|points| - 1].time == now
      && UniformlySpaced(points, IntervalMs(shape.interval))
      && Chronological(points)
  {
    var points := GenerateDataPoints(timeframe, base, fluctuation, now, draws);
    CountdownTimeline(points, now, IntervalMs(ShapeOf(timeframe).interval));
  }

  /**
   * Every generated value is its draw's raw value rounded to three decimals,
   * so it lies within half a thousandth of the band
   * [base - fluctuation/2, base + fluctuation/2).
   */
  lemma SeriesValueBounds(timeframe: string, base: real, fluctuation: real, now: int, draws: seq<real>)
    requires |draws| >= ShapeOf(timeframe).numPoints
    requires ValidDraws(draws)
    requires fluctuation > 0.0
    ensures var points := GenerateDataPoints(timeframe, base, fluctuation, now, draws);
      forall k :: 0 <= k < |points| ==>
        && base - fluctuation / 2.0 <= RawValue(base, fluctuation, draws[k]) < base + fluctuation / 2.0
        && base - fluctuation / 2.0 - 0.0005 <= points[k].value <= base + fluctuation / 2.0 + 0.0005
  {
    var points := GenerateDataPoints(timeframe, base, fluctuation, now, draws);
    forall k | 0 <= k < |points|
      ensures base - fluctuation / 2.0 <= RawValue(base, fluctuation, draws[k]) < base + fluctuation / 2.0
      ensures base - fluctuation / 2.0 - 0.0005 <= points[k].value <= base + fluctuation / 2.0 + 0.0005
    {
      var raw := RawValue(base, fluctuation, draws[k]);
      var v := points[k].value;
      assert Rounding.Scale(SampleDecimals) == 1000.0;
      assert -0.5 <= (v - raw) * 1000.0 <= 0.5;
    }
  }

  /** The series' shape depends only on the timeframe, not on the clock or the draws. */
  lemma SeriesShapeIndependentOfDraws(timeframe: string, base: real, fluctuation: real,
                                      now1: int, draws1: seq<real>, now2: int, draws2: seq<real>)
    requires |draws1| >= ShapeOf(timeframe).numPoints && |draws2| >= ShapeOf(timeframe).numPoints
    ensures var p1 := GenerateDataPoints(timeframe, base, fluctuation, now1, draws1);
      var p2 := GenerateDataPoints(timeframe, base, fluctuation, now2, draws2);
      && |p1| == |p2|
      && forall k :: 0 <= k < |p1| ==> p1[k].time - now1 == p2[k].time - now2
  {
  }
}

=== FILE: sorting.dfy ===
/**
 * Ascending numeric sort, as `values.sort((a, b) => a - b)` performs it on a
 * list of finite numbers, and the order-statistic facts the p75 selection
 * relies on. The sort is written as an insertion sort; any sort yields the
 * same list, because an ascending permutation of a list is unique
 * (SortedPermutationUnique).
 */
module Sorting {

  /** s is in ascending order. */
  predicate Ascending(s: seq<real>) {
    forall i, j :: 0 <= i < j < |s| ==> s[i] <= s[j]
  }

  /** The number of elements of s that are at most x. */
  function CountAtMost(s: seq<real>, x: real): nat {
    if s == [] then 0 else (if s[0] <= x then 1 else 0) + CountAtMost(s[1..], x)
  }

  /** The number of elements of s that are at least x. */
  function CountAtLeast(s: seq<real>, x: real): nat {
    if s == [] then 0 else (if s[0] >= x then 1 else 0) + CountAtLeast(s[1..], x)
  }

  /** Insert x into an ascending list, keeping it ascending. */
  function Insert(x: real, s: seq<real>): (r: seq<real>)
    requires Ascending(s)
    ensures Ascending(r)
    ensures multiset(r) == multiset(s) + multiset{x}
    ensures |r| == |s| + 1
    ensures r[0] == x || (s != [] && r[0] == s[0])
  {
    if s == [] || x <= s[0] then
      ConsAscending(x, s);
      [x] + s
    else
      var t := Insert(x, s[1..]);
      assert s == [s[0]] + s[1..];
      assert s[0] <= t[0];
      ConsAscending(s[0], t);
      assert multiset(s) == multiset{s[0]} + multiset(s[1..]);
      assert multiset([s[0]] + t) == multiset{s[0]} + multiset(t);
      assert ([s[0]] + t)[0] == s[0];
      [s[0]] + t
  }

  /** Putting a value no greater than the head in front of an ascending list keeps it ascending. */
  lemma ConsAscending(h: real, t: seq<real>)
    requires Ascending(t)
    requires t != [] ==> h <= t[0]
    ensures Ascending([h] + t)
  {
    var r := [h] + t;
    forall i, j | 0 <= i < j < |r|
      ensures r[i] <= r[j]
    {
      if i == 0 {
        assert r[j] == t[j - 1] && t[0] <= t[j - 1];
      } else {
        assert r[i] == t[i - 1] && r[j] == t[j - 1];
      }
    }
  }

  /** The values of s in ascending order. */
  function Sort(s: seq<real>): (r: seq<real>)
    ensures Ascending(r)
    ensures multiset(r) == multiset(s)
    ensures |r| == |s|
  {
    if s == [] then
      []
    else
      assert s == [s[0]] + s[1..];
      Insert(s[0], Sort(s[1..]))
  }

  /** Inserting y adds one to a count exactly when y is counted. */
  lemma {:induction false} InsertCounts(y: real, s: seq<real>, x: real)
    requires Ascending(s)
    ensures CountAtMost(Insert(y, s), x) == CountAtMost(s, x) + (if y <= x then 1 else 0)
    ensures CountAtLeast(Insert(y, s), x) == CountAtLeast(s, x) + (if y >= x then 1 else 0)
  {
    if s == [] || y <= s[0] {
      assert ([y] + s)[1..] == s;
    } else {
      InsertCounts(y, s[1..], x);
      assert ([s[0]] + Insert(y, s[1..]))[1..] == Insert(y, s[1..]);
    }
  }

  /** Sorting does not change how many values lie at or below, or at or above, any bound. */
  lemma {:induction false} SortCounts(s: seq<real>, x: real)
    ensures CountAtMost(Sort(s), x) == CountAtMost(s, x)
    ensures CountAtLeast(Sort(s), x) == CountAtLeast(s, x)
  {
    if s != [] {
      SortCounts(s[1..], x);
      InsertCounts(s[0], Sort(s[1..]), x);
    }
  }

  /** If the first m elements are at most x, at least m elements are at most x. */
  lemma {:induction false} CountAtMostPrefix(s: seq<real>, x: real, m: nat)
    requires m <= |s|
    requires forall i :: 0 <= i < m ==> s[i] <= x
    ensures CountAtMost(s, x) >= m
  {
    if m > 0 {
      CountAtMostPrefix(s[1..], x, m - 1);
    }
  }

  /** If the elements from index m on are at least x, at least |s| - m elements are at least x. */
  lemma {:induction false} CountAtLeastSuffix(s: seq<real>, x: real, m: nat)
    requires m <= |s|
    requires forall i :: m <= i < |s| ==> s[i] >= x
    ensures CountAtLeast(s, x) >= |s| - m
  {
    if s != [] {
      if m == 0 {
        CountAtLeastSuffix(s[1..], x, 0);
      } else {
        CountAtLeastSuffix(s[1..], x, m - 1);
      }
    }
  }

  /** In an ascending list, the element at index k has k + 1 elements at most it and |t| - k at least it. */
  lemma AscendingRanks(t: seq<real>, k: nat)
    requires Ascending(t) && k < |t|
    ensures CountAtMost(t, t[k]) >= k + 1
    ensures CountAtLeast(t, t[k]) >= |t| - k
  {
    CountAtMostPrefix(t, t[k], k + 1);
    CountAtLeastSuffix(t, t[k], k);
  }

  /**
   * The element at index k of the sorted values is an order statistic of the
   * values: it is one of them, at least k + 1 of them are at most it and at
   * least |s| - k of them are at least it.
   */
  lemma {:induction false} OrderStatistic(s: seq<real>, k: nat)
    requires k < |s|
    ensures Sort(s)[k] in s
    ensures CountAtMost(s, Sort(s)[k]) >= k + 1
    ensures CountAtLeast(s, Sort(s)[k]) >= |s| - k
  {
    var t := Sort(s);
    var x := t[k];
    assert x in multiset(t);
    AscendingRanks(t, k);
    SortCounts(s, x);
  }

  /** Two ascending lists with the same elements are equal: the sorted order is unique. */
  lemma {:induction false} SortedPermutationUnique(a: seq<real>, b: seq<real>)
    requires Ascending(a) && Ascending(b)
    requires multiset(a) == multiset(b)
    ensures a == b
  {
    assert |a| == |multiset(a)| == |multiset(b)| == |b|;
    if a != [] {
      HeadIsLeast(a, b);
      HeadIsLeast(b, a);
      var ta, tb := a[1..], b[1..];
      assert a == [a[0]] + ta;
      assert b == [b[0]] + tb;
      assert multiset(a) == multiset{a[0]} + multiset(ta);
      assert multiset(b) == multiset{a[0]} + multiset(tb);
      assert multiset(ta) == multiset(a) - multiset{a[0]};
      assert multiset(tb) == multiset(b) - multiset{a[0]};
      SortedPermutationUnique(ta, tb);
    }
  }

  /** The head of an ascending list is at most every element of a permutation of it. */
  lemma HeadIsLeast(a: seq<real>, b: seq<real>)
    requires Ascending(a) && a != []
    requires multiset(a) == multiset(b)
    ensures b != [] && a[0] <= b[0]
  {
    assert b[0] in multiset(b) by {
      assert |b| == |a| > 0;
    }
    assert b[0] in a;
  }
}

=== FILE: types.dfy ===
/**
 * The value types shared by the mock analytics engine and the request
 * handler: metric names, sample points, comparisons and the assembled
 * analytics result. Times are UTC epoch milliseconds; the ISO-8601 string the
 * application serialises them to is not part of this model.
 */
module Types {

  /** An optional value; models a query parameter that may be absent. */
  datatype Option<+T> = None | Some(value: T)

  /** The three web-performance metrics the dashboard knows about. */
  datatype Metric = LCP | FID | CLS {

    /** The metric's wire name, as it appears in a query string and in JSON. */
    function Name(): string {
      match this
      case LCP => "LCP"
      case FID => "FID"
      case CLS => "CLS"
    }
  }

  /** The spacing unit of a generated series. */
  datatype Interval = Hour | Day

  /** One sample: a UTC instant in epoch milliseconds and a measured value. */
  datatype Point = Point(time: int, value: real)

  /** Direction of the synthetic period-over-period change. */
  datatype ChangeType = Increase | Decrease | Neutral

  /** The period-over-period comparison: a percentage change and its direction. */
  datatype Comparison = Comparison(change: real, changeType: ChangeType)

  /** The analytics result returned for one metric and timeframe. */
  datatype AnalyticsData = AnalyticsData(
    metric: Metric,
    p75: real,
    points: seq<Point>,
    comparison: Comparison)

  /** `points.map(p => p.value)`: the values of a series, in series order. */
  function Values(points: seq<Point>): (vs: seq<real>)
    ensures |vs| == |points|
    ensures forall k :: 0 <= k < |points| ==> vs[k] == points[k].value
  {
    seq(|points|, k requires 0 <= k < |points| => points[k].value)
  }

  /** Every draw of the random source lies in [0, 1), as `Math.random` promises. */
  predicate ValidDraws(draws: seq<real>) {
    forall k :: 0 <= k < |draws| ==> 0.0 <= draws[k] < 1.0
  }
}
